=== FILE: README.md ===
# Ceres contract execution layer — Dafny model

This project models three pieces of the Ceres (europa-light) WebAssembly
contract runtime and proves properties about them:

- **The executor's result vocabulary** (`CeresExecutor`). It has the
  `ReturnCode` enumeration with its `#[repr(i32)]` discriminants 0–10 and
  the total `From<i32>` decoder, which sends every unknown integer to
  `UnExpectedReturnCode`. It also has the executor `Error` taxonomy and the
  conversion from foreign `anyhow` errors.
- **The sandbox's nested-instantiate queue** (`CeresSandbox`).
  `Sandbox::instantiate` does not run anything. It appends an
  `InstantiateEntry` to the extension context and returns a fixed stub
  result: the code hash, an empty `ExecReturnValue` and the `u32` 0. The
  queue is never reset by `deploy` or `call`, so it persists for the
  runtime's whole life.
- **Runtime orchestration** (`CeresRuntime`, `CeresRuntimeProperties`).
  `new` (state selection only), `deploy`, `call` and `flush` are pure step
  functions from a runtime record to a result and the runtime afterwards.
  The record holds the sandbox, the metadata tables and a map-backed
  storage (`CeresStorage`).

Three things are parameters of the runtime steps and stay uninterpreted:

- the WebAssembly engine (`Instance::invoke`), as an `Engine` function from
  an export name and a sandbox to an outcome and the sandbox the contract
  left behind;
- `util::parse_args`, as an `ArgParser`;
- `util::parse_code_hash`, as a `HashParser`.

The transaction type and the contract state type are type parameters: the
runtime never looks inside them.

Fixed-width integers (`u32`, `u64`, `i32`, bytes) are newtypes with exactly
the Rust ranges (`Primitives`). Rust's `Option`/`Result` are mirrored in
`Wrappers`.

Two details of the code that the model reproduces:

- A failed method lookup or argument marshalling does not leave the runtime
  as it was. The supplied transaction is installed before the lookup
  (crates/runtime/src/runtime.rs:125-132, 154-161), so it stays after the
  failure. `Prepare`, `Deploy` and `Call` state this.
- `instantiate` takes the gas meter by `&mut` but does not debit it. It only
  copies `gas_left` into the entry (crates/sandbox/src/instantiate.rs:32).
  The endowment parameter is commented out
  (crates/sandbox/src/instantiate.rs:23), and the literal 3 is stored
  instead. `Instantiate` states both facts.

## Model

| member | source | states |
|---|---|---|
| CeresExecutor.Discriminant | crates/executor/src/result.rs:5-37 | every variant's discriminant lies in 0..=10, and it is 10 exactly for `UnExpectedReturnCode` |
| CeresExecutor.FromI32 | crates/executor/src/result.rs:39-55 | defined for every `i32` with no precondition; each `n` in 0..=9 decodes to the variant whose discriminant is `n`; every other `n`, negatives included, decodes to `UnExpectedReturnCode`; the result is a known code iff `n` is in 0..=9 |
| CeresExecutor.FromDiscriminant | crates/executor/src/result.rs:36-52 | round trip: decoding any variant's discriminant gives that variant back, including `UnExpectedReturnCode = 10`, which comes back through the wildcard arm |
| CeresExecutor.FromI32InjectiveOnKnown | crates/executor/src/result.rs:41-51 | distinct codes in 0..=9 decode to distinct variants |
| CeresExecutor.DiscriminantInjective | crates/executor/src/result.rs:7-37 | distinct variants have distinct discriminants |
| CeresExecutor.FromAnyhow | crates/executor/src/result.rs:101-105 | converting any foreign `anyhow` error yields `Error::AnyHow` |
| CeresSandbox.Instantiate | crates/sandbox/src/instantiate.rs:27-49 | the queue grows by exactly one entry and its earlier entries are unchanged; the new entry records the code hash, data and salt passed, the meter's `gas_left` at call time and endowment 3; the gas meter is returned unchanged; transaction, input, return buffer and state are unchanged; the result is always `Ok((code_hash, {flags: empty, data: []}, 0))` |
| CeresSandbox.InstantiateAll | crates/sandbox/src/instantiate.rs:28-34 | after any sequence of instantiate calls, the queue is the old queue followed by one entry per call, in call order, each recording its own call's arguments; no other sandbox field changes |
| CeresSandbox.Entries | crates/sandbox/src/instantiate.rs:29-33 | the entries a sequence of instantiate calls should queue: one per call, in call order, each recording its call's code hash, data, salt, meter `gas_left` and endowment 3 |
| CeresSandbox.InstantiateAllLog | crates/sandbox/src/instantiate.rs:28-34 | the queue is an append-only log: after any sequence of instantiate calls it equals the old queue followed by `Entries` of those calls, with nothing removed, reordered or rewritten |
| CeresSandbox.InstantiateAllAppend | crates/sandbox/src/instantiate.rs:28-34 | two batches of instantiate calls run in turn leave the same sandbox as their concatenation run at once |
| CeresRuntime.ArgTypes | crates/runtime/src/runtime.rs:138 | the declared types handed to `parse_args` are the second components of the method's `(name, type)` pairs, same length and same order |
| CeresRuntime.NextTx | crates/runtime/src/runtime.rs:125-127 | a supplied transaction replaces the current one; `None` keeps the current one |
| CeresRuntime.HandOver | crates/runtime/src/runtime.rs:134-139 | the sandbox handed to the engine has the new transaction and the payload as input, and its return buffer, state and queue are unchanged |
| CeresRuntime.Prepare | crates/runtime/src/runtime.rs:124-139 | the step succeeds iff the method is in the table and its arguments marshal, and then the input buffer holds the payload; an unknown method gives `GetMethodFailed{name}`; a marshalling failure passes on `parse_args`'s failure, wrapped as `Util`, so in this model it can never be mistaken for `GetMethodFailed`; on failure only the transaction has changed, because it is installed before the lookup |
| CeresStorage.Storage.Get | crates/runtime/src/runtime.rs:86-91 | `storage.get(hash)` gives the state stored under the hash if there is one, and `None` exactly when there is none |
| CeresStorage.Storage.NewState | crates/runtime/src/runtime.rs:91 | `storage.new_state()` gives the backend's one initial state, the same on every call |
| CeresStorage.Storage.Set | crates/runtime/src/runtime.rs:182-185 | after `storage.set(hash, state)`, `get(hash)` gives that state, every other hash reads as before, and `new_state()` is unchanged |
| CeresRuntime.New | crates/runtime/src/runtime.rs:85-92 | a `parse_code_hash` failure is returned, wrapped as `Util`; otherwise the sandbox starts under `tx0` from the state stored under the parsed hash when there is one and from `new_state()` otherwise, with empty buffers and queue, and metadata and storage are kept |
| CeresRuntime.Deploy | crates/runtime/src/runtime.rs:123-145 | an unknown constructor gives `GetMethodFailed{name}` and a marshalling failure gives `parse_args`'s failure wrapped as `Util`, and in both cases only the transaction changes; otherwise the `deploy` export runs on the prepared sandbox; the result is `Ok(())` exactly when the engine succeeds and is `DeployContractFailed` wrapping the engine error otherwise; the engine's sandbox is kept either way; storage and metadata never change |
| CeresRuntime.Call | crates/runtime/src/runtime.rs:147-178 | same resolution behaviour against the message table; after the `call` export runs, a filled return buffer is returned as `Ok` whatever the engine reported; without one, an engine error gives `CallContractFailed` and success gives `Ok([])`; the return buffer is always empty afterwards, and the rest of the sandbox is as the engine left it; storage and metadata never change |
| CeresRuntime.Flush | crates/runtime/src/runtime.rs:180-188 | a `parse_code_hash` failure is returned, wrapped as `Util`, and nothing changes; otherwise storage maps the parsed hash to the sandbox's state, every other hash reads as before, and the sandbox is unchanged |
| CeresRuntimeProperties.DeployUnresolvedIgnoresEngine | crates/runtime/src/runtime.rs:129-139 | when the constructor is unknown or its arguments do not marshal, `deploy`'s result and runtime are the same for every engine, so the engine is never invoked, and the input buffer is untouched |
| CeresRuntimeProperties.CallUnresolvedIgnoresEngine | crates/runtime/src/runtime.rs:158-168 | the same for `call`: an unknown message or a marshalling failure never reaches the engine and leaves the input buffer untouched |
| CeresRuntimeProperties.DeployKeepsQueue | crates/runtime/src/runtime.rs:123-145 | `deploy` never resets the instantiate queue: when the contract issues instantiate calls during the invocation, the queue afterwards is the earlier queue followed by one entry per call, and when the engine is not reached the queue is unchanged |
| CeresRuntimeProperties.CallKeepsQueue | crates/runtime/src/runtime.rs:147-178 | the same for `call`: earlier entries stay and the invocation's entries are appended after them, so the queue persists across invocations |
| CeresRuntimeProperties.FlushThenNew | crates/runtime/src/runtime.rs:181-188 | after a successful `flush`, a `new` against the same storage and code hash starts from the flushed state |
| CeresRuntimeProperties.Run | crates/runtime/src/runtime.rs:123-178 | across any sequence of `deploy` and `call` invocations, each run by its own freely chosen engine and whatever each returns, storage and metadata are unchanged |
| CeresRuntimeProperties.SessionWithoutFlushIsLost | crates/runtime/src/runtime.rs:123-178 | for every input, a `new` after a session of invocations without a flush starts exactly as a `new` before the session |
| CeresRuntimeProperties.OnlyFlushPersists | crates/runtime/src/runtime.rs:180-188 | a `new` after a session of invocations and a successful final flush starts from the session's working state |

## Left out

- Contract package decoding in `from_contract`, `from_contract_and_storage`
  and `from_metadata_and_storage` (crates/runtime/src/runtime.rs:20-64) is
  left out. It is JSON and hex decoding by library crates. The only detail
  the code adds is that the first two characters (`0x`) of the WASM string
  are skipped before hex decoding.
- `Runtime::new` module handling is left out: module parsing, the
  name-section pass, `util::scan_imports`, `Memory::new`, the `Builder`
  and `Instance::new` (crates/runtime/src/runtime.rs:73-83, 94-112). They
  belong to the foreign engine, so the errors they raise before and after
  state selection are not modelled. `New` covers state selection only.
- `Instance::invoke` is an uninterpreted `Engine` parameter. What a
  contract does while it runs is not modelled. That covers gas charging,
  memory bounds checks, topic validation and the return-data host call.
  For these only the error variants are declared
  (crates/executor/src/result.rs:62, 79-83).
- `util::parse_args` and `util::parse_code_hash` are not part of this
  model. They are uninterpreted parameters. The model assumes nothing about
  the payload `parse_args` builds or about when it rejects an argument
  list, so no property here fixes the bytes that `deploy` or `call` put in
  the input buffer.
- CeresStorage.Storage.NewState: the model takes `new_state()` to return
  one fixed initial state that `set` never changes. The source calls a
  method of the storage backend (crates/runtime/src/runtime.rs:91), and
  that backend is not part of this model, so a backend whose fresh state
  varies between calls is not covered.
- Storage is an in-memory map. `set` always succeeds there, so
  `CeresRuntime.Flush` has no path for a failing storage backend. A
  backend's `set` error would be returned unchanged by the `?` on
  crates/runtime/src/runtime.rs:185.
- The sandbox constructor, the transaction type, the state type and the
  executor's trap type are not part of this model. `CeresSandbox.Fresh`
  assumes a new sandbox starts with empty input and return buffers and an
  empty queue. `Runtime::new` takes no transaction: the initial one is
  whatever `Sandbox::new(mem, state)` installs
  (crates/runtime/src/runtime.rs:95). The `tx0` parameter of
  `CeresRuntime.New` and `CeresSandbox.Fresh` stands for that unspecified
  default transaction. A trap is represented by its description string.
- The extension context is modelled with its instantiate queue only;
  other extension-context queues are not modelled.
- The sandbox's linear memory (`sandbox.mem()`,
  crates/runtime/src/runtime.rs:103) and the engine instance's own state
  are not fields of the model's sandbox or runtime. An `Engine` value is
  therefore a function of the modelled sandbox fields alone. To cover
  invocations whose behaviour depends on that unmodelled state,
  `CeresRuntimeProperties.Run` takes a separately chosen engine for every
  step.
- The `Rc<RefCell<…>>` sharing of the sandbox and storage is left out. It is
  borrow plumbing: the model passes values explicitly.
- `Display for Error` (crates/executor/src/result.rs:94-99) is left out. It
  is string formatting through `Debug`.
- The runtime's `Error` is declared elsewhere in the runtime crate
  (`crate::Error`, imported at crates/runtime/src/runtime.rs:2).
  `CeresRuntime.Error` has the three variants the modelled steps construct
  (`GetMethodFailed`, `DeployContractFailed`, `CallContractFailed`) and one
  more, `Util`, that wraps whatever failure `parse_args` or
  `parse_code_hash` reports. Such a failure is carried as a description,
  not as the helper's own variant.
- The integration tests are left out. They drive compiled contracts through
  the engine, and they use different signatures from
  `crates/runtime/src/runtime.rs`. runtime/tests/invoke.rs:8,11 calls a
  one-argument `from_contract` and `deploy`. tests/call_contracts.rs:29
  passes a cache to `from_contract`. tests/args.rs:26 passes pre-encoded
  `Vec<Vec<u8>>` arguments to `call`.

=== FILE: executor_result.dfy ===
/** The executor's outcome vocabulary: the contract-facing `ReturnCode`
    enumeration with its `i32` decoder, and the host-facing `Error` taxonomy. */
module CeresExecutor {
  import opened Primitives

  /** The status codes a host function reports to a contract, in declaration
      order. Each variant's `#[repr(i32)]` discriminant is given by
      `Discriminant`. */
  datatype ReturnCode =
    | Success
    | CalleeTrapped
    | CalleeReverted
    | KeyNotFound
    | BelowSubsistenceThreshold
    | TransferFailed
    | NewContractNotFunded
    | CodeNotFound
    | NotCallable
    | LoggingDisabled
    | UnExpectedReturnCode

  /** The declared discriminant of a variant: `Success = 0` up to
      `UnExpectedReturnCode = 10`. */
  function Discriminant(c: ReturnCode): (n: i32)
    ensures 0 <= n <= 10
    ensures n == 10 <==> c == UnExpectedReturnCode
  {
    match c
    case Success => 0
    case CalleeTrapped => 1
    case CalleeReverted => 2
    case KeyNotFound => 3
    case BelowSubsistenceThreshold => 4
    case TransferFailed => 5
    case NewContractNotFunded => 6
    case CodeNotFound => 7
    case NotCallable => 8
    case LoggingDisabled => 9
    case UnExpectedReturnCode => 10
  }

  /** `impl From<i32> for ReturnCode`: defined for every `i32` (there is no
      precondition), the ten known codes decode to their own variant and
      every other integer, negatives included, to `UnExpectedReturnCode`. */
  function FromI32(n: i32): (c: ReturnCode)
    ensures 0 <= n <= 9 ==> Discriminant(c) == n
    ensures !(0 <= n <= 9) ==> c == UnExpectedReturnCode
    ensures c != UnExpectedReturnCode <==> 0 <= n <= 9
  {
    match n
    case 0 => Success
    case 1 => CalleeTrapped
    case 2 => CalleeReverted
    case 3 => KeyNotFound
    case 4 => BelowSubsistenceThreshold
    case 5 => TransferFailed
    case 6 => NewContractNotFunded
    case 7 => CodeNotFound
    case 8 => NotCallable
    case 9 => LoggingDisabled
    case _ => UnExpectedReturnCode
  }

  /** Decoding a variant's own discriminant gives the variant back; for
      `UnExpectedReturnCode` (10) this goes through the wildcard arm. */
  lemma FromDiscriminant(c: ReturnCode)
    ensures FromI32(Discriminant(c)) == c
  {
  }

  /** Distinct known codes decode to distinct variants. */
  lemma FromI32InjectiveOnKnown(a: i32, b: i32)
    requires 0 <= a <= 9 && 0 <= b <= 9
    requires a != b
    ensures FromI32(a) != FromI32(b)
  {
  }

  /** Distinct variants carry distinct discriminants. */
  lemma DiscriminantInjective(c: ReturnCode, d: ReturnCode)
    requires Discriminant(c) == Discriminant(d)
    ensures c == d
  {
  }

  /** A trap raised by the engine. The executor's trap module is not part of
      this model; a trap is represented by its description. */
  datatype TrapReason = TrapReason(description: string)

  /** The executor's error taxonomy, with the source's spelling of each
      variant. */
  datatype Error =
    | InitMemoryFailed
    | OutOfBounds
    | InitModuleFailed
    | ExecuteFailed(code: ReturnCode)
    | UnkownError
    | Trap(trap: TrapReason)
    | GetFunctionNameFailed
    | CreateWasmtimeConfigFailed
    | GetExternalFailed(name: string)
    | DecodeRuntimeValueFailed
    | OutputBufferTooSmall
    | WrongArugmentLength
    | SetStorageFailed
    | ReturnData(flags: u32, data: Bytes)
    | TooManyTopics
    | DuplicateTopics
    | TopicValueTooLarge
    | OutOfGas
    | Custom(message: string)
    | AnyHow
    | UnExpectedReturnValue
    | ParseWasmModuleFailed
    | ExecutorNotInited

  /** A foreign error from the `anyhow` crate, represented by its message. */
  datatype AnyhowError = AnyhowError(message: string)

  /** `impl From<anyhow::Error> for Error`: the foreign error's content is
      discarded and every such error becomes `AnyHow`. */
  function FromAnyhow(e: AnyhowError): (r: Error)
    ensures r == AnyHow
  {
    AnyHow
  }
}

=== FILE: primitives.dfy ===
/** Fixed-width machine integers and byte strings used by the contract layer.
    Dafny integers are unbounded, so each Rust width is a newtype whose range
    is exactly that of the Rust type. */
module Primitives {

  newtype byte = x: int | 0 <= x < 0x100

  newtype u32 = x: int | 0 <= x < 0x1_0000_0000

  newtype u64 = x: int | 0 <= x < 0x1_0000_0000_0000_0000

  newtype i32 = x: int | -0x8000_0000 <= x < 0x8000_0000

  type Bytes = seq<byte>

  /** A contract code hash, `[u8; 32]`. */
  type CodeHash = h: Bytes | |h| == 32 witness seq(32, _ => 0)
}

=== FILE: runtime.dfy ===
/** Runtime orchestration: one loaded contract, its sandbox, its metadata and
    the storage its state lives in, with the `new` / `deploy` / `call` /
    `flush` steps as pure functions from a runtime to a result and the
    runtime afterwards.

    The WebAssembly engine and two utility helpers are parameters, left
    uninterpreted:
    - `Engine` runs an exported entry point against the sandbox and returns
      the engine's outcome and the sandbox as the contract left it;
    - `ArgParser` stands for `util::parse_args` (selector, textual arguments
      and declared types to a call payload, or an error);
    - `HashParser` stands for `util::parse_code_hash`. */
module CeresRuntime {
  import opened Wrappers
  import opened Primitives
  import CeresExecutor
  import opened CeresSandbox
  import opened CeresStorage

  /** A constructor or message selector, four bytes. */
  type Selector = s: Bytes | |s| == 4 witness [0, 0, 0, 0]

  /** A reference to a declared parameter type in the metadata's type
      registry. */
  type TypeId = nat

  /** One constructor or message of the ABI: its selector and its ordered
      `(name, type)` parameters. */
  datatype Method = Method(selector: Selector, args: seq<(string, TypeId)>)

  /** The metadata fields the runtime consumes: the textual code hash and
      the constructor and message tables. */
  datatype Metadata = Metadata(
    codeHash: string,
    constructors: map<string, Method>,
    messages: map<string, Method>)

  /** A failure raised inside `util::parse_args` or `util::parse_code_hash`.
      Which runtime error each helper raises is decided by the helper, so it
      is represented only by a description. */
  datatype UtilError = UtilError(description: string)

  /** The runtime crate's errors as the modelled steps see them: the three
      the steps construct themselves, and any failure of the helpers, which
      the steps pass on unchanged. */
  datatype Error =
    | GetMethodFailed(name: string)
    | DeployContractFailed(error: CeresExecutor.Error)
    | CallContractFailed(error: CeresExecutor.Error)
    | Util(failure: UtilError)

  datatype Runtime<Tx, S> = Runtime(
    sandbox: Sandbox<Tx, S>,
    metadata: Metadata,
    storage: Storage<S>)

  /** What the engine reports after running one entry point. */
  datatype Invocation<Tx, S> = Invocation(
    outcome: Outcome<CeresExecutor.Error>,
    sandbox: Sandbox<Tx, S>)

  type Engine<!Tx, !S> = (string, Sandbox<Tx, S>) -> Invocation<Tx, S>

  type ArgParser = (Selector, seq<string>, seq<TypeId>) -> Result<Bytes, UtilError>

  type HashParser = string -> Result<CodeHash, UtilError>

  /** The export names the runtime invokes. */
  const DeployExport: string := "deploy"
  const CallExport: string := "call"

  /** The declared types of a method's parameters, in order: the second
      component of every `(name, type)` pair. */
  function ArgTypes(params: seq<(string, TypeId)>): (tys: seq<TypeId>)
    ensures |tys| == |params|
    ensures forall i :: 0 <= i < |params| ==> tys[i] == params[i].1
  {
    if |params| == 0 then []
    else [params[0].1] + ArgTypes(params[1..])
  }

  /** The transaction a step runs under: the supplied one replaces the old
      one, and `None` keeps the old one. */
  function NextTx<Tx>(current: Tx, tx: Option<Tx>): (t: Tx)
    ensures tx.Some? ==> t == tx.value
    ensures tx.None? ==> t == current
  {
    if tx.Some? then tx.value else current
  }

  /** True when `after` is `before` with at most the transaction replaced. */
  ghost predicate OnlyTxInstalled<Tx, S>(before: Sandbox<Tx, S>, after: Sandbox<Tx, S>, tx: Option<Tx>)
  {
    && after.tx == NextTx(before.tx, tx)
    && after.input == before.input
    && after.ret == before.ret
    && after.state == before.state
    && after.ext == before.ext
  }

  /** True when `method` resolves in `table` and its arguments marshal. */
  ghost predicate Resolves(table: map<string, Method>, name: string, args: seq<string>, parseArgs: ArgParser)
  {
    name in table && parseArgs(table[name].selector, args, ArgTypes(table[name].args)).Ok?
  }

  /** The payload a resolving method marshals to. */
  function Payload(table: map<string, Method>, name: string, args: seq<string>, parseArgs: ArgParser): Bytes
    requires Resolves(table, name, args, parseArgs)
  {
    parseArgs(table[name].selector, args, ArgTypes(table[name].args)).value
  }

  /** The sandbox the engine receives: the transaction installed and the
      payload in the input buffer, everything else as in `sb`. */
  function HandOver<Tx, S>(sb: Sandbox<Tx, S>, tx: Option<Tx>, payload: Bytes): (h: Sandbox<Tx, S>)
    ensures h.tx == NextTx(sb.tx, tx)
    ensures h.input == Some(payload)
    ensures h.ret == sb.ret && h.state == sb.state && h.ext == sb.ext
  {
    sb.(tx := NextTx(sb.tx, tx), input := Some(payload))
  }

  /** The outcome of the steps shared by `deploy` and `call` before the
      engine runs. */
  datatype Prepared<Tx, S> =
    | Ready(sandbox: Sandbox<Tx, S>)
    | Rejected(error: Error, sandbox: Sandbox<Tx, S>)

  /** Install the transaction, then look the method up and marshal its
      arguments into the input buffer. The transaction is installed first,
      so it stays even when the lookup or the marshalling fails; on failure
      the input buffer is left as it was. */
  function Prepare<Tx, S>(sb: Sandbox<Tx, S>, table: map<string, Method>, name: string, args: seq<string>, tx: Option<Tx>, parseArgs: ArgParser): (r: Prepared<Tx, S>)
    ensures r.Ready? <==> Resolves(table, name, args, parseArgs)
    ensures r.Ready? ==> r.sandbox == HandOver(sb, tx, Payload(table, name, args, parseArgs))
    ensures r.Rejected? ==> OnlyTxInstalled(sb, r.sandbox, tx)
    ensures name !in table ==> r.Rejected? && r.error == GetMethodFailed(name)
    ensures name in table && !Resolves(table, name, args, parseArgs) ==>
      r.Rejected? && r.error == Util(parseArgs(table[name].selector, args, ArgTypes(table[name].args)).error)
  {
    var withTx := sb.(tx := NextTx(sb.tx, tx));
    if name !in table then Rejected(GetMethodFailed(name), withTx)
    else
      var m := table[name];
      match parseArgs(m.selector, args, ArgTypes(m.args))
      case Err(e) => Rejected(Util(e), withTx)
      case Ok(payload) => Ready(withTx.(input := Some(payload)))
  }

  /** `Runtime::new`, state selection only: the contract's state is loaded
      from storage under its parsed code hash, or a fresh one is created
      when storage has none. Module parsing, memory set-up and instance
      construction are left to the engine. `Runtime::new` takes no
      transaction: `tx0` stands for the unspecified default one the sandbox
      constructor installs. */
  function New<Tx, S>(metadata: Metadata, storage: Storage<S>, parseCodeHash: HashParser, tx0: Tx): (r: Result<Runtime<Tx, S>, Error>)
    ensures parseCodeHash(metadata.codeHash).Err? ==> r == Err(Util(parseCodeHash(metadata.codeHash).error))
    ensures parseCodeHash(metadata.codeHash).Ok? ==> r.Ok?
    ensures r.Ok? ==>
      var h := parseCodeHash(metadata.codeHash).value;
      && (storage.Get(h).Some? ==> r.value.sandbox.state == storage.Get(h).value)
      && (storage.Get(h).None? ==> r.value.sandbox.state == storage.NewState())
      && r.value.sandbox.tx == tx0
      && r.value.sandbox.input.None?
      && r.value.sandbox.ret.None?
      && r.value.sandbox.ext.instantiates == []
      && r.value.metadata == metadata
      && r.value.storage == storage
  {
    match parseCodeHash(metadata.codeHash)
    case Err(e) => Err(Util(e))
    case Ok(h) =>
      var state := match storage.Get(h) case Some(s) => s case None => storage.NewState();
      Ok(Runtime(Fresh(tx0, state), metadata, storage))
  }

  /** `Runtime::deploy`: resolve `method` among the constructors, marshal
      its arguments and run the `deploy` export. */
  function Deploy<Tx, S>(rt: Runtime<Tx, S>, name: string, args: seq<string>, tx: Option<Tx>, parseArgs: ArgParser, invoke: Engine<Tx, S>): (r: (Result<(), Error>, Runtime<Tx, S>))
    ensures r.1.metadata == rt.metadata && r.1.storage == rt.storage
    ensures name !in rt.metadata.constructors ==> r.0 == Err(GetMethodFailed(name))
    ensures name in rt.metadata.constructors && !Resolves(rt.metadata.constructors, name, args, parseArgs) ==>
      var m := rt.metadata.constructors[name];
      r.0 == Err(Util(parseArgs(m.selector, args, ArgTypes(m.args)).error))
    ensures !Resolves(rt.metadata.constructors, name, args, parseArgs) ==> OnlyTxInstalled(rt.sandbox, r.1.sandbox, tx)
    ensures Resolves(rt.metadata.constructors, name, args, parseArgs) ==>
      var inv := invoke(DeployExport, HandOver(rt.sandbox, tx, Payload(rt.metadata.constructors, name, args, parseArgs)));
      && r.1.sandbox == inv.sandbox
      && (r.0.Ok? <==> inv.outcome.Pass?)
      && (inv.outcome.Fail? ==> r.0 == Err(DeployContractFailed(inv.outcome.error)))
  {
    match Prepare(rt.sandbox, rt.metadata.constructors, name, args, tx, parseArgs)
    case Rejected(e, sb) => (Err(e), rt.(sandbox := sb))
    case Ready(sb) =>
      var inv := invoke(DeployExport, sb);
      var res := match inv.outcome case Pass => Ok(()) case Fail(e) => Err(DeployContractFailed(e));
      (res, rt.(sandbox := inv.sandbox))
  }

  /** `Runtime::call`: resolve `method` among the messages, marshal its
      arguments and run the `call` export. A return buffer the contract
      filled is taken out of the sandbox and returned, whatever the engine
      reported; without one, an engine error becomes `CallContractFailed`
      and success yields no output. */
  function Call<Tx, S>(rt: Runtime<Tx, S>, name: string, args: seq<string>, tx: Option<Tx>, parseArgs: ArgParser, invoke: Engine<Tx, S>): (r: (Result<Bytes, Error>, Runtime<Tx, S>))
    ensures r.1.metadata == rt.metadata && r.1.storage == rt.storage
    ensures name !in rt.metadata.messages ==> r.0 == Err(GetMethodFailed(name))
    ensures name in rt.metadata.messages && !Resolves(rt.metadata.messages, name, args, parseArgs) ==>
      var m := rt.metadata.messages[name];
      r.0 == Err(Util(parseArgs(m.selector, args, ArgTypes(m.args)).error))
    ensures !Resolves(rt.metadata.messages, name, args, parseArgs) ==> OnlyTxInstalled(rt.sandbox, r.1.sandbox, tx)
    ensures Resolves(rt.metadata.messages, name, args, parseArgs) ==>
      var inv := invoke(CallExport, HandOver(rt.sandbox, tx, Payload(rt.metadata.messages, name, args, parseArgs)));
      && r.1.sandbox.ret.None?
      && r.1.sandbox == inv.sandbox.(ret := None)
      && (inv.sandbox.ret.Some? ==> r.0 == Ok(inv.sandbox.ret.value))
      && (inv.sandbox.ret.None? && inv.outcome.Fail? ==> r.0 == Err(CallContractFailed(inv.outcome.error)))
      && (inv.sandbox.ret.None? && inv.outcome.Pass? ==> r.0 == Ok([]))
  {
    match Prepare(rt.sandbox, rt.metadata.messages, name, args, tx, parseArgs)
    case Rejected(e, sb) => (Err(e), rt.(sandbox := sb))
    case Ready(sb) =>
      var inv := invoke(CallExport, sb);
      var after := rt.(sandbox := inv.sandbox.(ret := None));
      match inv.sandbox.ret
      case Some(out) => (Ok(out), after)
      case None =>
        match inv.outcome
        case Fail(e) => (Err(CallContractFailed(e)), after)
        case Pass => (Ok([]), after)
  }

  /** `Runtime::flush`: write the sandbox's working state to storage under
      the parsed code hash. Nothing else changes. */
  function Flush<Tx, S>(rt: Runtime<Tx, S>, parseCodeHash: HashParser): (r: (Result<(), Error>, Runtime<Tx, S>))
    ensures r.1.sandbox == rt.sandbox && r.1.metadata == rt.metadata
    ensures parseCodeHash(rt.metadata.codeHash).Err? ==>
      r.0 == Err(Util(parseCodeHash(rt.metadata.codeHash).error)) && r.1.storage == rt.storage
    ensures parseCodeHash(rt.metadata.codeHash).Ok? ==>
      var h := parseCodeHash(rt.metadata.codeHash).value;
      && r.0 == Ok(())
      && r.1.storage.Get(h) == Some(rt.sandbox.state)
      && (forall k :: k != h ==> r.1.storage.Get(k) == rt.storage.Get(k))
      && r.1.storage.NewState() == rt.storage.NewState()
  {
    match parseCodeHash(rt.metadata.codeHash)
    case Err(e) => (Err(Util(e)), rt)
    case Ok(h) => (Ok(()), rt.(storage := rt.storage.Set(h, rt.sandbox.state)))
  }
}

=== FILE: runtime_properties.dfy ===
/** Properties relating several runtime steps: resolution failures never
    reach the engine, `flush` followed by `new` restores the flushed state,
    only `flush` makes state durable, and the instantiate queue outlives
    each invocation. */
module CeresRuntimeProperties {
  import opened Wrappers
  import opened CeresRuntime
  import opened CeresSandbox

  /** When the constructor is unknown or its arguments do not marshal, the
      engine is never run: `deploy` gives the same answer and leaves the
      same runtime whichever engine is plugged in. */
  lemma DeployUnresolvedIgnoresEngine<Tx, S>(rt: Runtime<Tx, S>, name: string, args: seq<string>, tx: Option<Tx>, parseArgs: ArgParser, engineA: Engine<Tx, S>, engineB: Engine<Tx, S>)
    requires !Resolves(rt.metadata.constructors, name, args, parseArgs)
    ensures Deploy(rt, name, args, tx, parseArgs, engineA) == Deploy(rt, name, args, tx, parseArgs, engineB)
    ensures Deploy(rt, name, args, tx, parseArgs, engineA).1.sandbox.input == rt.sandbox.input
  {
  }

  /** The same for `call` and the message table. */
  lemma CallUnresolvedIgnoresEngine<Tx, S>(rt: Runtime<Tx, S>, name: string, args: seq<string>, tx: Option<Tx>, parseArgs: ArgParser, engineA: Engine<Tx, S>, engineB: Engine<Tx, S>)
    requires !Resolves(rt.metadata.messages, name, args, parseArgs)
    ensures Call(rt, name, args, tx, parseArgs, engineA) == Call(rt, name, args, tx, parseArgs, engineB)
    ensures Call(rt, name, args, tx, parseArgs, engineA).1.sandbox.input == rt.sandbox.input
  {
  }

  /** The instantiate queue is not reset by `deploy`: when the contract
      issues `reqs` during the invocation, the queue afterwards is the queue
      before it followed by their entries, and an invocation that does not
      reach the engine leaves the queue as it was. */
  lemma DeployKeepsQueue<Tx, S>(rt: Runtime<Tx, S>, name: string, args: seq<string>, tx: Option<Tx>, parseArgs: ArgParser, invoke: Engine<Tx, S>, reqs: seq<Request>)
    requires Resolves(rt.metadata.constructors, name, args, parseArgs) ==>
      var h := HandOver(rt.sandbox, tx, Payload(rt.metadata.constructors, name, args, parseArgs));
      invoke(DeployExport, h).sandbox == InstantiateAll(h, reqs)
    ensures Resolves(rt.metadata.constructors, name, args, parseArgs) ==>
      Deploy(rt, name, args, tx, parseArgs, invoke).1.sandbox.ext.instantiates == rt.sandbox.ext.instantiates + Entries(reqs)
    ensures !Resolves(rt.metadata.constructors, name, args, parseArgs) ==>
      Deploy(rt, name, args, tx, parseArgs, invoke).1.sandbox.ext == rt.sandbox.ext
  {
  }

  /** The same for `call` against the message table. */
  lemma CallKeepsQueue<Tx, S>(rt: Runtime<Tx, S>, name: string, args: seq<string>, tx: Option<Tx>, parseArgs: ArgParser, invoke: Engine<Tx, S>, reqs: seq<Request>)
    requires Resolves(rt.metadata.messages, name, args, parseArgs) ==>
      var h := HandOver(rt.sandbox, tx, Payload(rt.metadata.messages, name, args, parseArgs));
      invoke(CallExport, h).sandbox == InstantiateAll(h, reqs)
    ensures Resolves(rt.metadata.messages, name, args, parseArgs) ==>
      Call(rt, name, args, tx, parseArgs, invoke).1.sandbox.ext.instantiates == rt.sandbox.ext.instantiates + Entries(reqs)
    ensures !Resolves(rt.metadata.messages, name, args, parseArgs) ==>
      Call(rt, name, args, tx, parseArgs, invoke).1.sandbox.ext == rt.sandbox.ext
  {
  }

  /** Round-trip persistence: after a successful `flush`, a fresh `new`
      against the same storage and code hash starts from the flushed
      state. */
  lemma FlushThenNew<Tx, S>(rt: Runtime<Tx, S>, parseCodeHash: HashParser, tx0: Tx)
    requires parseCodeHash(rt.metadata.codeHash).Ok?
    ensures var flushed := Flush(rt, parseCodeHash).1;
      && New(rt.metadata, flushed.storage, parseCodeHash, tx0).Ok?
      && New(rt.metadata, flushed.storage, parseCodeHash, tx0).value.sandbox.state == rt.sandbox.state
  {
  }

  /** One externally requested invocation, together with the engine
      behaviour for that invocation. The engine of each step is chosen
      freely, so it may depend on everything that ran before it (the
      contract's memory, the engine's own instance state, earlier results). */
  datatype Step<!Tx, !S> =
    | DeployStep(name: string, args: seq<string>, tx: Option<Tx>, invoke: Engine<Tx, S>)
    | CallStep(name: string, args: seq<string>, tx: Option<Tx>, invoke: Engine<Tx, S>)

  /** The runtime after the given invocations ran one after another, each to
      completion, whatever each returned. Neither `deploy` nor `call` writes
      storage, so across any such session storage is what it was. */
  function Run<Tx, S>(rt: Runtime<Tx, S>, steps: seq<Step<Tx, S>>, parseArgs: ArgParser): (r: Runtime<Tx, S>)
    ensures r.storage == rt.storage
    ensures r.metadata == rt.metadata
    decreases |steps|
  {
    if |steps| == 0 then rt
    else
      var next := match steps[0]
        case DeployStep(n, a, t, e) => Deploy(rt, n, a, t, parseArgs, e).1
        case CallStep(n, a, t, e) => Call(rt, n, a, t, parseArgs, e).1;
      Run(next, steps[1..], parseArgs)
  }

  /** A session without a flush is not durable: a runtime built after it,
      against the storage the session leaves, starts exactly as one built
      before the session (including when the code hash does not parse). */
  lemma SessionWithoutFlushIsLost<Tx, S>(rt: Runtime<Tx, S>, steps: seq<Step<Tx, S>>, parseArgs: ArgParser, parseCodeHash: HashParser, tx0: Tx)
    ensures var after := Run(rt, steps, parseArgs);
      New(after.metadata, after.storage, parseCodeHash, tx0) == New(rt.metadata, rt.storage, parseCodeHash, tx0)
  {
  }

  /** Only `flush` makes state durable: a runtime built after a session
      followed by a successful flush starts from the session's working
      state. */
  lemma OnlyFlushPersists<Tx, S>(rt: Runtime<Tx, S>, steps: seq<Step<Tx, S>>, parseArgs: ArgParser, parseCodeHash: HashParser, tx0: Tx)
    requires parseCodeHash(rt.metadata.codeHash).Ok?
    ensures var after := Run(rt, steps, parseArgs);
      && New(after.metadata, Flush(after, parseCodeHash).1.storage, parseCodeHash, tx0).Ok?
      && New(after.metadata, Flush(after, parseCodeHash).1.storage, parseCodeHash, tx0).value.sandbox.state == after.sandbox.state
  {
  }
}

=== FILE: sandbox.dfy ===
/** The sandbox record that sits between a running contract and the host, and
    its nested-instantiate queue. `Sandbox::instantiate` does not run the new
    contract: it appends an `InstantiateEntry` to the extension context and
    returns a fixed placeholder result. */
module CeresSandbox {
  import opened Wrappers
  import opened Primitives
  import CeresExecutor

  /** `ReturnFlags`, a set of bit flags stored in a `u32`. */
  datatype ReturnFlags = ReturnFlags(bits: u32)

  /** `ReturnFlags::empty()`: no flag set. */
  const EmptyFlags: ReturnFlags := ReturnFlags(0)

  /** The typed result of one execution. */
  datatype ExecReturnValue = ExecReturnValue(flags: ReturnFlags, data: Bytes)

  /** The gas meter handed to a nested instantiate. */
  datatype GasMeter = GasMeter(gasLeft: u64)

  /** The endowment every queued instantiate records, whatever the caller
      asked for: the endowment parameter is commented out and the literal 3
      is stored in its place. */
  const FixedEndowment: u64 := 3

  /** A queued request to create a contract instance. */
  datatype InstantiateEntry = InstantiateEntry(
    codeHash: CodeHash,
    endowment: u64,
    data: Bytes,
    gasLeft: u64,
    salt: Bytes)

  /** The extension context: the queue of nested instantiates. Neither
      `deploy` nor `call` resets it, so it accumulates the entries of every
      invocation over the runtime's life. */
  datatype Ext = Ext(instantiates: seq<InstantiateEntry>)

  /** The sandbox fields the runtime and the instantiate path touch: the
      current transaction, the input buffer the contract reads its call
      payload from, the return buffer it may fill, the working copy of the
      contract state and the extension context. The transaction type `Tx`
      and the state type `S` are opaque to this layer. */
  datatype Sandbox<Tx, S> = Sandbox(
    tx: Tx,
    input: Option<Bytes>,
    ret: Option<Bytes>,
    state: S,
    ext: Ext)

  /** A freshly built sandbox over a loaded state. The sandbox constructor
      is not part of this model: it is taken to start with empty buffers and
      an empty queue, under `tx`, which stands for the unspecified default
      transaction the constructor installs. */
  function Fresh<Tx, S>(tx: Tx, state: S): Sandbox<Tx, S>
  {
    Sandbox(tx, None, None, state, Ext([]))
  }

  /** The type `instantiate` returns on success: a 32-byte array, an
      `ExecReturnValue` and a `u32`. The stub fills them with the code hash,
      an empty return value and 0. */
  type Instantiation = (CodeHash, ExecReturnValue, u32)

  /** The outcome of `instantiate` together with the sandbox and the gas
      meter as they stand afterwards (both are taken by `&mut`). */
  datatype Instantiated<Tx, S> = Instantiated(
    result: Result<Instantiation, CeresExecutor.Error>,
    sandbox: Sandbox<Tx, S>,
    meter: GasMeter)

  /** True when a queued entry records exactly the request made: the code
      hash, input data and salt passed, the gas the meter had left at call
      time, and the fixed endowment. */
  ghost predicate Records(e: InstantiateEntry, codeHash: CodeHash, meter: GasMeter, data: Bytes, salt: Bytes)
  {
    && e.codeHash == codeHash
    && e.endowment == FixedEndowment
    && e.data == data
    && e.gasLeft == meter.gasLeft
    && e.salt == salt
  }

  /** True when `after` differs from `before` at most in the instantiate
      queue. */
  ghost predicate SameBesidesQueue<Tx, S>(before: Sandbox<Tx, S>, after: Sandbox<Tx, S>)
  {
    && after.tx == before.tx
    && after.input == before.input
    && after.ret == before.ret
    && after.state == before.state
  }

  /** `Sandbox::instantiate`: queue one entry and report a stub success. */
  function Instantiate<Tx, S>(sb: Sandbox<Tx, S>, codeHash: CodeHash, meter: GasMeter, data: Bytes, salt: Bytes): (r: Instantiated<Tx, S>)
    ensures |r.sandbox.ext.instantiates| == |sb.ext.instantiates| + 1
    ensures r.sandbox.ext.instantiates[..|sb.ext.instantiates|] == sb.ext.instantiates
    ensures Records(r.sandbox.ext.instantiates[|sb.ext.instantiates|], codeHash, meter, data, salt)
    ensures r.meter == meter
    ensures SameBesidesQueue(sb, r.sandbox)
    ensures r.result.Ok?
    ensures r.result.value.0 == codeHash
    ensures r.result.value.1 == ExecReturnValue(EmptyFlags, [])
    ensures r.result.value.2 == 0
  {
    var entry := InstantiateEntry(codeHash, FixedEndowment, data, meter.gasLeft, salt);
    Instantiated(
      Ok((codeHash, ExecReturnValue(EmptyFlags, []), 0)),
      sb.(ext := sb.ext.(instantiates := sb.ext.instantiates + [entry])),
      meter)
  }

  /** The arguments of one `instantiate` call made by a running contract. */
  datatype Request = Request(codeHash: CodeHash, meter: GasMeter, data: Bytes, salt: Bytes)

  /** The sandbox after a contract has issued the given `instantiate` calls
      in order during one invocation. */
  function InstantiateAll<Tx, S>(sb: Sandbox<Tx, S>, reqs: seq<Request>): (r: Sandbox<Tx, S>)
    ensures |r.ext.instantiates| == |sb.ext.instantiates| + |reqs|
    ensures r.ext.instantiates[..|sb.ext.instantiates|] == sb.ext.instantiates
    ensures forall i :: 0 <= i < |reqs| ==>
      var q := reqs[i];
      Records(r.ext.instantiates[|sb.ext.instantiates| + i], q.codeHash, q.meter, q.data, q.salt)
    ensures SameBesidesQueue(sb, r)
    decreases |reqs|
  {
    if |reqs| == 0 then sb
    else
      var q := reqs[0];
      InstantiateAll(Instantiate(sb, q.codeHash, q.meter, q.data, q.salt).sandbox, reqs[1..])
  }

  /** The entries a sequence of requests should leave in the queue, one per
      request and in request order, each recording its own request. */
  function Entries(reqs: seq<Request>): (es: seq<InstantiateEntry>)
    ensures |es| == |reqs|
    ensures forall i :: 0 <= i < |reqs| ==>
      Records(es[i], reqs[i].codeHash, reqs[i].meter, reqs[i].data, reqs[i].salt)
  {
    seq(|reqs|, i requires 0 <= i < |reqs| =>
      InstantiateEntry(reqs[i].codeHash, FixedEndowment, reqs[i].data, reqs[i].meter.gasLeft, reqs[i].salt))
  }

  /** The queue is an append-only log: after any sequence of `instantiate`
      calls it is exactly the old queue followed by the entries of the
      requests, nothing removed, reordered or rewritten. */
  lemma InstantiateAllLog<Tx, S>(sb: Sandbox<Tx, S>, reqs: seq<Request>)
    ensures InstantiateAll(sb, reqs).ext.instantiates == sb.ext.instantiates + Entries(reqs)
  {
  }

  /** Issuing two batches of requests one after the other leaves the same
      sandbox as issuing their concatenation. */
  lemma {:induction false} InstantiateAllAppend<Tx, S>(sb: Sandbox<Tx, S>, a: seq<Request>, b: seq<Request>)
    ensures InstantiateAll(sb, a + b) == InstantiateAll(InstantiateAll(sb, a), b)
    decreases |a|
  {
    if |a| == 0 {
      assert a + b == b;
    } else {
      var q := a[0];
      var next := Instantiate(sb, q.codeHash, q.meter, q.data, q.salt).sandbox;
      assert (a + b)[0] == q;
      assert (a + b)[1..] == a[1..] + b;
      InstantiateAllAppend(next, a[1..], b);
    }
  }
}

=== FILE: storage.dfy ===
/** The key-addressed state store the runtime loads contract state from and
    flushes it back to, modelled as an in-memory map from code hash to state.
    `initial` is the state `new_state()` hands out when a hash has none. */
module CeresStorage {
  import opened Wrappers
  import opened Primitives

  datatype Storage<S> = Storage(entries: map<CodeHash, S>, initial: S)
  {
    /** `get(code_hash)`: the stored state, if any. */
    function Get(h: CodeHash): (r: Option<S>)
      ensures r.Some? <==> h in entries
      ensures r.Some? ==> r.value == entries[h]
    {
      if h in entries then Some(entries[h]) else None
    }

    /** `new_state()`: the state of a contract that has never been flushed.
        The model takes it to be the one state the backend was built with,
        the same on every call and not affected by `set`. */
    function NewState(): (s: S)
      ensures s == initial
    {
      initial
    }

    /** `set(code_hash, state)`: store `s` under `h`, replacing what was
        there. */
    function Set(h: CodeHash, s: S): (r: Storage<S>)
      ensures r.Get(h) == Some(s)
      ensures forall k :: k != h ==> r.Get(k) == Get(k)
      ensures r.NewState() == NewState()
    {
      Storage(entries[h := s], initial)
    }
  }
}

=== FILE: wrappers.dfy ===
/** Failure-carrying datatypes shared by the whole model. The names follow the
    Rust conventions of the modelled system: `Option` (`Some`/`None`),
    `Result` (`Ok`/`Err`) and, for a fallible step that yields no value,
    `Outcome` (`Pass`/`Fail`). */
module Wrappers {

  datatype Option<+T> = None | Some(value: T)

  datatype Result<+T, +E> = Ok(value: T) | Err(error: E)

  datatype Outcome<+E> = Pass | Fail(error: E)
}
